=== FILE: README.md ===
# Brightbox deployment recipes — a Dafny model

The Brightbox recipes are Capistrano task definitions. They deploy a Rails
application to Brightbox servers: they update the code, create and load the
MySQL database, configure monit to supervise the mongrel cluster, and set up
and reload Apache. Each task sends a short, fixed list of shell commands over
SSH. This project models the logic that decides *which* commands run and in
*what order*:

- **Deployment plans** (`deploy:cold`, `deploy:default`, `deploy:migrations`).
  Each plan is a sequence of task tags, and a `transaction do … end` group is a
  block of tags. Ruby's exception propagation through straight-line code is
  modelled by an executor. A failure oracle says which tasks raise; the
  executor returns the tasks actually started and whether the run completed or
  which task raised (`Execution`, `Deploy`).
- **Task bodies** of the `apache`, `monit`, `monit:mongrel` and `load_schema`
  tasks, as lists of `run`/`sudo` commands plus the 5-second settle of
  `monit:reload` (`Tasks`).
- **`read_db_config` and `mysql:create_database`**: choosing the environment's
  entry of `config/database.yml`, the two advisory naming warnings (Ruby's `^`
  is modelled as the line anchor it is), the adapter guard, and the reply to the
  `Enter password:` prompt (`Database`, with `Text` for the regex anchor).
- **configure.rb**: the `_cset` defaults `railsapp-*` for the six helper
  commands, the version-pinned `<command> _<Version>_` strings, the
  logrotation and maintenance command lines, and the `configure:check` control
  flow: skip if there are releases, print a hint and re-raise on error, always
  reset the releases cache (`Configure`).

Remote execution is abstracted to "the step returns or raises". Configuration
variables, `::Version`, the parsed YAML, the release listing and the outcome of
`deploy:check` are all parameters.

Behaviour worth noting:

- `create_database` raises (aborting `deploy:cold`) in two ways. `read_db_config`
  raises when `config/database.yml` has no entry for the environment, and the
  remote `mysql` command may fail. When the entry exists and the adapter is not
  `mysql`, it issues nothing, cannot raise, and the cold deployment goes on to
  `load_schema` (`Database.ColdReachesLoadSchemaWithoutMysql`).
- The hint is printed only for exceptions a bare `rescue` catches
  (StandardError). Every exception is re-raised unchanged.
- A failure while *listing* the releases also triggers the hint. That listing
  is inside the `begin` block (configure.rb:96).

lib/brightbox/recipes.rb:47 reads `namespace :mongrel` without `do`. As
written, the file has one `end` too many and would not parse. The model
follows the evident intent: the cluster tasks are nested as
`monit:mongrel:*`, which is how the plans call them.

## Model

| member | source | states |
|---|---|---|
| Execution.ExecuteAbortsOnFirstFailure | lib/brightbox/recipes.rb:66-81 | Straight-line execution: the started tasks are a prefix of the plan. Every started task except the last returned. The run completes exactly when no planned task raises, and then every task was started. Otherwise it ends with the last started task, which raised |
| Execution.AbortsOnFirstFailureUnique | lib/brightbox/recipes.rb:66-81 | The abort-on-first-failure specification admits only one execution, so the executor is the only behaviour consistent with it |
| Execution.ExecuteAppend | lib/brightbox/recipes.rb:84-93 | Running two pieces of straight-line code one after the other: the second runs only if the first completed, and its started tasks follow the whole of the first |
| Execution.FlattenAsTasks | lib/brightbox/recipes.rb:72-80 | A run of individual task calls flattens to exactly those tasks, in order |
| Execution.ExecuteBlocks | lib/brightbox/recipes.rb:67-70 | A `transaction` block is sequencing only: running the grouped plan gives the same started tasks and outcome as running its flattened task list |
| Execution.StartedAfterPredecessorsReturned | lib/brightbox/recipes.rb:66-106 | In a plan without repeated tasks, a task starts only if every task planned before it started and returned |
| Execution.NothingAfterFailure | lib/brightbox/recipes.rb:72-80 | Once a task raises, no task planned after it is started, and the run ends with an error |
| Deploy.PlanSteps | lib/brightbox/recipes.rb:66-106 | No task appears twice in any of the three task lists |
| Deploy.Plan | lib/brightbox/recipes.rb:66-106 | The block structure of each plan, transaction included, flattens to the task list written out in recipes.rb |
| Deploy.Deploy | lib/brightbox/recipes.rb:66-106 | Each deployment task runs exactly as its flattened task list under the abort-on-first-failure executor |
| Deploy.ColdOrder | lib/brightbox/recipes.rb:66-81 | `deploy:cold` starts with update_code then symlink. Then create_database < load_schema < migrate < start_cluster < apache setup < apache reload, and monit configure < monit reload < start_cluster |
| Deploy.StartsOnlyAfterEarlierTasksReturned | lib/brightbox/recipes.rb:66-106 | In every plan and under any failure pattern, a task starts only after each task planned before it started and did not raise |
| Deploy.NoTaskAfterARaise | lib/brightbox/recipes.rb:66-106 | In every plan, if a task raises, no later task starts and the deployment ends with an error |
| Deploy.UpdateCodeFailureStopsEverything | lib/brightbox/recipes.rb:67-70 | If update_code raises, only update_code was started, in every plan; the symlink of the same transaction never runs |
| Deploy.ColdStopsAtExistingDatabase | lib/brightbox/recipes.rb:66-81 | `deploy:cold` with a failing create_database starts exactly update_code, symlink and create_database and ends with that error. Nothing from load_schema on is started |
| Deploy.DefaultMaintenanceWindow | lib/brightbox/recipes.rb:84-93 | In `deploy:default`, the cluster restart starts only after web:disable returned. web:enable starts only after every task of the transaction returned |
| Deploy.MigrationsIsDefaultWithMigrate | lib/brightbox/recipes.rb:84-106 | `deploy:migrations` is `deploy:default` with migrate inserted inside the transaction, after the symlink and before the cluster restart |
| Deploy.MigrateFailureNeverReachesWebEnable | lib/brightbox/recipes.rb:96-106 | If migrate raises in `deploy:migrations`, the run is update_code, web:disable, symlink, migrate: web:disable returned, and the cluster restart and web:enable are never started |
| Deploy.CompletedRunStartedWholePlan | lib/brightbox/recipes.rb:66-106 | A deployment that completes started every planned task in plan order, and none of them raised |
| Tasks.Body | lib/brightbox/recipes.rb:4-111 | Each task defined here issues one or two commands. All are sudo except load_schema's single `run` and the sleep that ends `monit:reload`. The Apache configuration test appears in exactly the three apache tasks |
| Tasks.ConfigTestGuardsApache | lib/brightbox/recipes.rb:6-21 | `apache:reload` is `apache2ctl -t` then `apache2ctl graceful`; `apache:restart` is `apache2ctl -t` then `/etc/init.d/apache2 restart`. Under any failure pattern, no other command starts unless the test ran and passed |
| Tasks.ApacheSetupTestsAfterGenerating | lib/brightbox/recipes.rb:12-15 | `apache:setup` runs `brightbox-apache` with the application, domain, aliases, public directory and mongrel host, port and server count, then tests the configuration. The test runs only if generation returned |
| Tasks.MonitConfigureGenerates | lib/brightbox/recipes.rb:26-29 | `monit:configure` is one sudo of `brightbox-monit` with the application, current release, mongrel port, server count and host |
| Tasks.MonitStatusAndRestart | lib/brightbox/recipes.rb:31-45 | `monit:status` is one sudo of `monit status`, and `monit:restart` one sudo of `/etc/init.d/monit restart` |
| Tasks.MonitReloadSettles | lib/brightbox/recipes.rb:37-40 | `monit:reload` is `monit reload` followed by a 5-second settle. The settle is reached only if the reload returned |
| Tasks.ClusterTasksActOnApplicationGroup | lib/brightbox/recipes.rb:47-62 | The restart, start and stop cluster tasks each issue one sudo `monit -g <application>` command, continued by `restart all`, `start all` and `stop all` respectively |
| Tasks.LoadSchemaUsesEnvironment | lib/brightbox/recipes.rb:108-111 | `load_schema` changes to current_path, runs exactly the configured rake, and passes `RAILS_ENV` set to rails_env, or to `production` when that is nil or false, with the `db:schema:load` target |
| Environment.EnvKey | lib/brightbox/recipes.rb:110 | The environment label is rails_env unless that is nil or false, and `production` then |
| Text.ScanLinesFinds | lib/brightbox/recipes.rb:135 | From position i, the line scanner succeeds iff the pattern occurs at some line start at or after i |
| Text.LineAnchoredMatchMeaning | lib/brightbox/recipes.rb:135-138 | The executable `^pattern` match holds iff the pattern begins some line: at the start of the string or just after a newline |
| Text.SingleLineMatchIsPrefix | lib/brightbox/recipes.rb:135-138 | On a string without newlines, `^pattern` is exactly a prefix test |
| Database.HostWarns | lib/brightbox/recipes.rb:135-137 | The host warning is logged iff the host is nil or no line of it begins with `sqlreadwrite` |
| Database.NameWarns | lib/brightbox/recipes.rb:138-140 | The name warning is logged iff the database name is nil or no line of it begins with `<username>_`. A nil username reads as "" |
| Database.NamingWarnings | lib/brightbox/recipes.rb:135-140 | Each warning is in the list iff its check fails. The host warning comes first |
| Database.LoggedWarnings | lib/brightbox/recipes.rb:135-140 | The logged lines are the two warning texts of read_db_config: the host text iff the host check fails, the name text iff the name check fails, nothing else. The host text comes first, and each line is the text of the corresponding warning of `NamingWarnings` |
| Database.ReadDbConfig | lib/brightbox/recipes.rb:128-141 | Uses the entry under rails_env, or `production` when that is nil or false. It raises iff that environment has no entry. Otherwise it returns that entry with exactly the warnings the checks call for, host warning first, and the warnings never stop it |
| Database.CreateStatement | lib/brightbox/recipes.rb:118 | The mysql command names the host and then the user, asks for the password with `-p` instead of carrying it, and ends with `--execute="CREATE DATABASE <name>"`. Nil values read as "" |
| Database.CreateDatabase | lib/brightbox/recipes.rb:113-126 | Reads the settings first, with exactly the result and warnings of `read_db_config`, and raises when they are missing. It issues one `run` of the CREATE DATABASE statement iff the adapter is exactly `mysql`, and nothing otherwise |
| Database.CreateDatabaseRaises | lib/brightbox/recipes.rb:113-126 | `create_database` raises whenever the environment has no settings. With settings, it raises iff the adapter is `mysql` and the remote statement raises |
| Database.ColdReachesLoadSchemaWithoutMysql | lib/brightbox/recipes.rb:66-81 | In `deploy:cold`, with settings present and a non-mysql adapter, once update_code and symlink returned the run goes through create_database to load_schema |
| Database.ColdStopsWithoutSettings | lib/brightbox/recipes.rb:66-81 | In `deploy:cold`, with no settings for the environment, the run stops with create_database's error after update_code and symlink |
| Database.PasswordReply | lib/brightbox/recipes.rb:118-122 | The callback sends the password plus a newline iff a line of the output chunk begins `Enter password:`. Otherwise it sends nothing |
| Database.NamingChecksOnSingleLines | lib/brightbox/recipes.rb:135-140 | For single-line values, the host warning is "does not start with sqlreadwrite" and the name warning is "does not start with username_" |
| Database.HostExamples | lib/brightbox/recipes.rb:135-137 | `db1.internal` gets the host warning and `sqlreadwrite-1` does not |
| Database.NameExamples | lib/brightbox/recipes.rb:138-140 | For user `alice`, the name `shop` gets the warning and `alice_shop` does not |
| Database.HostCheckMatchesAnyLine | lib/brightbox/recipes.rb:135 | `^` anchors at every line: a host whose second line begins `sqlreadwrite` gets no warning |
| Configure.Cset | lib/brightbox/recipes/configure.rb:22-27 | `_cset` never overrides: existing variables keep their values, and the key gets the given value only when it was unset |
| Configure.SettingKeyInjective | lib/brightbox/recipes/configure.rb:22-27 | Each helper command has its own configuration variable |
| Configure.ApplyDefaultsMeaning | lib/brightbox/recipes/configure.rb:22-27 | Applying the defaults in order keeps each command the user set. Every other listed helper gets its default, and no other variable is added or changed |
| Configure.CommandDefaults | lib/brightbox/recipes/configure.rb:22-27 | After the six `_cset` lines, every helper command is set: to the user's value if there was one, else to railsapp-monit, railsapp-apache, railsapp-nginx, railsapp-mongrel, railsapp-logrotate or railsapp-maintenance. Variables already set keep their values, and every new variable is one of the six helper commands |
| Configure.HelperSetup | lib/brightbox/recipes/configure.rb:29-57 | Each `*_setup` string is the user's command for that helper, a space, `_`, the version and `_`. With no user setting, it uses the `railsapp-` default |
| Configure.SetupRoundTrip | lib/brightbox/recipes/configure.rb:29-31 | For a command without spaces, reading a setup string back gives the same command and version, so the string is exactly `command _version_` |
| Configure.DefaultSetupsParse | lib/brightbox/recipes/configure.rb:22-57 | Each default helper's setup string reads back to that helper and version |
| Configure.OnOneLineLayout | lib/brightbox/recipes/configure.rb:73-80 | Collapsing the logrotation heredoc onto one line gives the setup string, then `-n`, `-l`, `-s` and `-k` with their values, in that order |
| Configure.Logrotation | lib/brightbox/recipes/configure.rb:72-81 | `configure:logrotation` issues one sudo of the logrotate setup string, followed by `-n application -l log_dir -s log_max_size -k log_keep` |
| Configure.Maintenance | lib/brightbox/recipes/configure.rb:86-88 | `configure:maintenance` runs the maintenance setup string, a space, exactly shared_path, and `/system` |
| Configure.Check | lib/brightbox/recipes/configure.rb:94-103 | deploy:check runs iff the releases read as empty. Its error, or an error from listing the releases, is re-raised unchanged and never swallowed. The hint is printed iff a StandardError escapes. The events keep the order listing, deploy:check, hint, reset, each at most once. The only text printed is the hint. The last event is always the reset, and the cache is left unloaded |
| Configure.CheckEvents | lib/brightbox/recipes/configure.rb:95-102 | The events of the `begin`/`rescue`/`ensure` body, in body order with no repeats. Each optional event is present iff it happened, and the reset always comes last |
| Configure.CheckForcesFreshListing | lib/brightbox/recipes/configure.rb:100-101 | Whether the check was skipped, passed or raised, the next read of `releases` lists the directory afresh |
| Configure.CheckReraisesDeployCheckError | lib/brightbox/recipes/configure.rb:96-101 | With no releases and a failing deploy:check, the events are: list, check, hint (for a StandardError), reset. The same error is raised |

## Left out

- SSH transport, `run`/`sudo` execution and their exit statuses. These are Capistrano's. A task body is a list of command lines, and whether a command raises is an oracle parameter.
- Role targeting (`:roles => :web/:app/:db`), `:primary => true` and `:except => {:no_release => true}`. These filter hosts inside Capistrano, which is not part of this model.
- Capistrano's transaction rollback. The `on_rollback` hooks registered by `deploy:update_code` and `deploy:symlink` are not visible. The model records only the tasks started and neither asserts nor denies a rollback.
- The bodies of `deploy:update_code`, `deploy:symlink`, `deploy:web:disable`, `deploy:web:enable`, `deploy:migrate`, `deploy:check` and `mongrel:configure_cluster`. They belong to Capistrano's and mongrel_cluster's own recipes and appear only as task tags or oracle outcomes.
- Loading `config/database.yml`. The parsed file is a parameter mapping environment labels to entries. Non-string YAML values are not modelled.
- Database.NameWarns: requires a username without regex metacharacters. The source interpolates the username unescaped into a regular expression, and only a literal username is modelled.
- Database.ReadDbConfig: the same username restriction, inherited from the name check.
- Database.NamingWarnings: the same username restriction, inherited from the name check.
- Database.LoggedWarnings: the same username restriction.
- Database.CreateDatabase: the same username restriction.
- Database.ColdReachesLoadSchemaWithoutMysql: the same username restriction, inherited from `CreateDatabaseRaises`. A username such as `a(` makes the name check raise a regular-expression error, which this model does not represent.
- Database.CreateDatabaseRaises: the same username restriction. In the deployment plans a task's failure is an oracle of its own. Only the `deploy:cold` lemmas that take `CreateDatabaseRaises` as a hypothesis tie that oracle to a task body; nothing else does.
- Timing: `sleep 5` in `monit:reload` is the `Sleep(5)` entry of the task body. Time itself is not modelled.
- `on_one_line` is not part of this model. It is taken to join the heredoc's five lines with single spaces: the setup string, then one line per flag with its value, each value as given and not trimmed.
- The `depend :remote, :command, …` declarations (configure.rb:32-57) and the loading of `configure/mongrel.rb` (configure.rb:59). They register remote dependency checks and other recipes that are not part of this model.
- `nginx_setup` and `mongrel_setup` are modelled as setup strings only. The tasks that use them are in `configure/mongrel.rb`, which is not part of this model.
- How Capistrano computes `releases`. It is a memoised listing of the releases directory: the model's `ReleasesCache` holds the memo, and the listing result is a parameter.
- Log output. The warnings are a list of `Warning` values with their texts, and the hint is a `Print` event carrying the exact text.
- Shell quoting of interpolated values. The source performs none.

=== FILE: configure.dfy ===
/** configure.rb: the helper-command names and their version-pinned invocation
    strings, the logrotation and maintenance commands, and `configure:check`. */
module Configure {
  import opened Results
  import opened Text
  import opened Remote

  /** The helper programs installed on the servers. */
  datatype Helper = MonitHelper | ApacheHelper | NginxHelper | MongrelHelper
                  | LogrotateHelper | MaintenanceHelper

  /** The configuration variable naming each helper's command. */
  function SettingKey(h: Helper): string
  {
    match h
    case MonitHelper => "monit_command"
    case ApacheHelper => "apache_command"
    case NginxHelper => "nginx_command"
    case MongrelHelper => "mongrel_command"
    case LogrotateHelper => "logrotate_command"
    case MaintenanceHelper => "maintenance_command"
  }

  /** The command used when the user has not set one. */
  function DefaultCommand(h: Helper): string
  {
    match h
    case MonitHelper => "railsapp-monit"
    case ApacheHelper => "railsapp-apache"
    case NginxHelper => "railsapp-nginx"
    case MongrelHelper => "railsapp-mongrel"
    case LogrotateHelper => "railsapp-logrotate"
    case MaintenanceHelper => "railsapp-maintenance"
  }

  /** Configuration variables set so far. */
  type Variables = map<string, string>

  /** `_cset`: sets `key` only when it has no value yet. */
  function Cset(vars: Variables, key: string, value: string): (r: Variables)
    ensures r.Keys == vars.Keys + {key}
    ensures forall k | k in vars :: r[k] == vars[k]
    ensures key !in vars ==> r[key] == value
  {
    if key in vars then vars else vars[key := value]
  }

  /** The helpers in the order of the `_cset` lines at the top of configure.rb. */
  const Helpers: seq<Helper> :=
    [MonitHelper, ApacheHelper, NginxHelper, MongrelHelper, LogrotateHelper, MaintenanceHelper]

  /** Applies `_cset` with each helper's default, in order. */
  function ApplyDefaults(vars: Variables, hs: seq<Helper>): Variables
    decreases |hs|
  {
    if |hs| == 0 then vars
    else ApplyDefaults(Cset(vars, SettingKey(hs[0]), DefaultCommand(hs[0])), hs[1..])
  }

  /** Different helpers are configured by different variables. */
  lemma SettingKeyInjective(h1: Helper, h2: Helper)
    requires h1 != h2
    ensures SettingKey(h1) != SettingKey(h2)
  {
  }

  /** Applying the defaults keeps a command the user set, gives every other
      listed helper its `railsapp-` default, and touches no other variable. */
  lemma {:induction false} ApplyDefaultsMeaning(vars: Variables, hs: seq<Helper>)
    ensures var r := ApplyDefaults(vars, hs);
      && (forall h | h in hs :: SettingKey(h) in r && r[SettingKey(h)] ==
            if SettingKey(h) in vars then vars[SettingKey(h)] else DefaultCommand(h))
      && (forall k | k in vars :: k in r && r[k] == vars[k])
      && (forall k | k in r && k !in vars :: exists h | h in hs :: k == SettingKey(h))
    decreases |hs|
  {
    if |hs| > 0 {
      var next := Cset(vars, SettingKey(hs[0]), DefaultCommand(hs[0]));
      ApplyDefaultsMeaning(next, hs[1..]);
      var r := ApplyDefaults(vars, hs);
      assert r == ApplyDefaults(next, hs[1..]);
      forall h | h in hs
        ensures SettingKey(h) in r && r[SettingKey(h)] ==
          if SettingKey(h) in vars then vars[SettingKey(h)] else DefaultCommand(h)
      {
        if h != hs[0] {
          assert h in hs[1..];
          SettingKeyInjective(h, hs[0]);
        }
      }
      forall k | k in r && k !in vars
        ensures exists h | h in hs :: k == SettingKey(h)
      {
        if k in next {
          assert k == SettingKey(hs[0]);
        } else {
          var h :| h in hs[1..] && k == SettingKey(h);
          assert h in hs;
        }
      }
    }
  }

  /** The variables after configure.rb's defaults for the helper commands: a
      command the user set is kept, every other one gets its `railsapp-` default,
      and no other variable changes. */
  function CommandDefaults(vars: Variables): (r: Variables)
    ensures forall h: Helper :: SettingKey(h) in r && r[SettingKey(h)] ==
              if SettingKey(h) in vars then vars[SettingKey(h)] else DefaultCommand(h)
    ensures forall k | k in vars :: k in r && r[k] == vars[k]
    ensures forall k | k in r && k !in vars :: exists h: Helper :: k == SettingKey(h)
  {
    EveryHelperListed();
    ApplyDefaultsMeaning(vars, Helpers);
    ApplyDefaults(vars, Helpers)
  }

  lemma EveryHelperListed()
    ensures forall h: Helper :: h in Helpers
  {
    forall h: Helper
      ensures h in Helpers
    {
      match h
      case MonitHelper => assert Helpers[0] == h;
      case ApacheHelper => assert Helpers[1] == h;
      case NginxHelper => assert Helpers[2] == h;
      case MongrelHelper => assert Helpers[3] == h;
      case LogrotateHelper => assert Helpers[4] == h;
      case MaintenanceHelper => assert Helpers[5] == h;
    }
  }

  /** `<command> _<version>_`: runs the helper pinned to the gem's version. */
  function Setup(command: string, version: string): string
  {
    command + " _" + version + "_"
  }

  /** `monit_setup`, `apache_setup`, ...: the setup string of a helper after the
      defaults are in place. */
  function HelperSetup(vars: Variables, h: Helper, version: string): (r: string)
    ensures SettingKey(h) in vars ==> r == Setup(vars[SettingKey(h)], version)
    ensures SettingKey(h) !in vars ==> r == Setup(DefaultCommand(h), version)
  {
    Setup(CommandDefaults(vars)[SettingKey(h)], version)
  }

  /** Reads a setup string back into command and version: the command is
      everything before the first space, the version sits between `_` marks. */
  function ParseSetup(s: string): Option<(string, string)>
  {
    var k := IndexOf(s, ' ');
    if k < 0 || |s| < k + 3 || s[k + 1] != '_' || s[|s| - 1] != '_' then None
    else Some((s[..k], s[k + 2..|s| - 1]))
  }

  /** A setup string determines its command and version whenever the command
      has no space, so distinct helpers or versions give distinct strings. */
  lemma SetupRoundTrip(command: string, version: string)
    requires ' ' !in command
    ensures ParseSetup(Setup(command, version)) == Some((command, version))
  {
    var s := Setup(command, version);
    forall i | 0 <= i < |command|
      ensures s[i] != ' '
    {
      assert s[i] == command[i];
      assert command[i] in command;
    }
    assert s[|command|] == ' ';
    var k := IndexOf(s, ' ');
    assert k >= |command|;
    assert k <= |command|;
    assert k == |command|;
    assert s[k + 1] == '_' && s[|s| - 1] == '_' && |s| >= k + 3;
    assert s[..k] == command;
    assert s[k + 2..|s| - 1] == version;
  }

  /** The built-in helper names have no space, so each resolves unambiguously. */
  lemma DefaultSetupsParse(h: Helper, version: string)
    ensures ParseSetup(Setup(DefaultCommand(h), version)) == Some((DefaultCommand(h), version))
  {
    var c := DefaultCommand(h);
    assert forall i | 0 <= i < |c| :: c[i] != ' ';
    SetupRoundTrip(c, version);
  }

  /** `configure:logrotation`: the heredoc's lines, collapsed onto one line. */
  function Logrotation(vars: Variables, version: string, application: string,
                       logDir: string, logMaxSize: string, logKeep: string): (c: Command)
    ensures c.Sudo?
    ensures c.line == LogrotationLayout(HelperSetup(vars, LogrotateHelper, version),
                                        application, logDir, logMaxSize, logKeep)
  {
    var setup := HelperSetup(vars, LogrotateHelper, version);
    var lines := [setup, "-n " + application, "-l " + logDir, "-s " + logMaxSize, "-k " + logKeep];
    OnOneLineLayout(setup, application, logDir, logMaxSize, logKeep);
    Sudo(JoinWords(lines))
  }

  /** The setup string followed by the four flags and their values, in order. */
  function LogrotationLayout(setup: string, application: string, logDir: string,
                             logMaxSize: string, logKeep: string): string
  {
    setup + " -n " + application + " -l " + logDir + " -s " + logMaxSize + " -k " + logKeep
  }

  lemma JoinTwoOrMore(w: string, ws: seq<string>)
    requires |ws| > 0
    ensures JoinWords([w] + ws) == w + " " + JoinWords(ws)
  {
    assert ([w] + ws)[1..] == ws;
  }

  /** Collapsing the logrotation heredoc onto one line gives the flag layout. */
  lemma OnOneLineLayout(setup: string, application: string, logDir: string,
                        logMaxSize: string, logKeep: string)
    ensures JoinWords([setup, "-n " + application, "-l " + logDir, "-s " + logMaxSize, "-k " + logKeep])
            == LogrotationLayout(setup, application, logDir, logMaxSize, logKeep)
  {
    var l1, l2, l3, l4 := "-n " + application, "-l " + logDir, "-s " + logMaxSize, "-k " + logKeep;
    JoinTwoOrMore(l3, [l4]);
    assert [l3] + [l4] == [l3, l4];
    JoinTwoOrMore(l2, [l3, l4]);
    assert [l2] + [l3, l4] == [l2, l3, l4];
    JoinTwoOrMore(l1, [l2, l3, l4]);
    assert [l1] + [l2, l3, l4] == [l1, l2, l3, l4];
    JoinTwoOrMore(setup, [l1, l2, l3, l4]);
    assert [setup] + [l1, l2, l3, l4] == [setup, l1, l2, l3, l4];
    var t := JoinWords([l3, l4]);
    assert t == l3 + " " + l4;
  }

  /** `configure:maintenance`: the maintenance helper pointed at the shared
      `system` directory. */
  function Maintenance(vars: Variables, version: string, sharedPath: string): (c: Command)
    ensures c.Run?
    ensures HelperSetup(vars, MaintenanceHelper, version) + " " <= c.line
    ensures |c.line| >= 7 && c.line[|c.line| - 7..] == "/system"
    ensures |HelperSetup(vars, MaintenanceHelper, version)| + 1 + |sharedPath| + 7 == |c.line|
    ensures c.line[|HelperSetup(vars, MaintenanceHelper, version)| + 1..|c.line| - 7] == sharedPath
  {
    Run(HelperSetup(vars, MaintenanceHelper, version) + " " + sharedPath + "/system")
  }

  /** An error raised remotely; `standard` when it is a StandardError, the only
      kind a bare `rescue` catches. */
  datatype Exception = Exception(message: string, standard: bool)

  /** The memoised `releases` variable: not yet read, or the listing read once. */
  datatype ReleasesCache = Unloaded | Loaded(releases: seq<string>)

  /** What `configure:check` does, in order. */
  datatype CheckEvent = ListReleases | RunDeployCheck | Print(text: string) | ResetReleases

  /** The guidance printed when the check fails. */
  const Hint := "Error detected. Have you run 'cap deploy:setup'?"

  /** The events of one `configure:check`, the exception it lets out (if any)
      and the `releases` cache it leaves. */
  datatype CheckRun = CheckRun(events: seq<CheckEvent>, raised: Option<Exception>, cache: ReleasesCache)

  /** Reading `releases`: the memoised listing, or else the remote listing (which
      may raise). */
  function ReadReleases(cache: ReleasesCache, listing: Result<seq<string>, Exception>): Result<seq<string>, Exception>
  {
    match cache
    case Loaded(rs) => Success(rs)
    case Unloaded => listing
  }

  /** Where each event sits in the body of `configure:check`: the listing and
      `deploy:check` inside `begin`, the hint in `rescue`, the reset in `ensure`. */
  function Rank(e: CheckEvent): nat
  {
    match e
    case ListReleases => 0
    case RunDeployCheck => 1
    case Print(_) => 2
    case ResetReleases => 3
  }

  /** Events strictly in body order, so each kind occurs at most once. */
  ghost predicate InBodyOrder(events: seq<CheckEvent>)
  {
    forall i, j | 0 <= i < j < |events| :: Rank(events[i]) < Rank(events[j])
  }

  /** Each event of `configure:check` in body order, those that happen. */
  function CheckEvents(listed: bool, ran: bool, hinted: bool): (es: seq<CheckEvent>)
    ensures InBodyOrder(es)
    ensures forall i | 0 <= i < |es| && es[i].Print? :: es[i] == Print(Hint)
    ensures (ListReleases in es) == listed && (RunDeployCheck in es) == ran
    ensures (Print(Hint) in es) == hinted
    ensures |es| > 0 && es[|es| - 1] == ResetReleases
  {
    (if listed then [ListReleases] else []) + (if ran then [RunDeployCheck] else [])
      + (if hinted then [Print(Hint)] else []) + [ResetReleases]
  }

  /** `configure:check`. `listing` is what listing the releases directory would
      give and `deployCheck` what `deploy:check` would raise. */
  function Check(cache: ReleasesCache, listing: Result<seq<string>, Exception>,
                 deployCheck: Option<Exception>): (r: CheckRun)
    ensures r.cache == Unloaded
    ensures |r.events| > 0 && r.events[|r.events| - 1] == ResetReleases
    ensures (ListReleases in r.events) <==> cache.Unloaded?
    ensures (RunDeployCheck in r.events) <==> ReadReleases(cache, listing) == Success([])
    ensures ReadReleases(cache, listing) == Success([]) ==> r.raised == deployCheck
    ensures ReadReleases(cache, listing).Failure? ==> r.raised == Some(ReadReleases(cache, listing).error)
    ensures (ReadReleases(cache, listing).Success? && ReadReleases(cache, listing).value != []) ==>
              r.raised == None
    ensures (Print(Hint) in r.events) <==> (r.raised.Some? && r.raised.value.standard)
    ensures InBodyOrder(r.events)
    ensures forall i | 0 <= i < |r.events| && r.events[i].Print? :: r.events[i] == Print(Hint)
  {
    var read := ReadReleases(cache, listing);
    var (ran, raised) :=
      if read.Failure? then (false, Some(read.error))
      else if |read.value| > 0 then (false, None)
      else (true, deployCheck);
    CheckRun(CheckEvents(cache.Unloaded?, ran, raised.Some? && raised.value.standard), raised, Unloaded)
  }

  /** After `configure:check`, whatever happened, the next read of `releases`
      lists the directory afresh instead of reusing a stale value. */
  lemma CheckForcesFreshListing(cache: ReleasesCache, listing: Result<seq<string>, Exception>,
                                deployCheck: Option<Exception>, later: Result<seq<string>, Exception>)
    ensures ReadReleases(Check(cache, listing, deployCheck).cache, later) == later
  {
  }

  /** The error from `deploy:check` is re-raised unchanged, after the hint, and
      the cache is still reset. */
  lemma CheckReraisesDeployCheckError(listing: Result<seq<string>, Exception>, e: Exception)
    requires listing == Success([])
    ensures Check(Unloaded, listing, Some(e)).raised == Some(e)
    ensures Check(Unloaded, listing, Some(e)).events ==
      [ListReleases, RunDeployCheck] + (if e.standard then [Print(Hint)] else []) + [ResetReleases]
  {
  }
}

=== FILE: database.dfy ===
/** `read_db_config` and `mysql:create_database` from recipes.rb: the database
    settings for the current environment, the two advisory naming checks, and
    the password reply to the interactive prompt. */
module Database {
  import opened Results
  import opened Text
  import opened Remote
  import opened Execution
  import Deploy
  import opened Environment

  /** One environment's entry of config/database.yml; a missing key is `None`. */
  datatype DbEntry = DbEntry(
    adapter: Option<string>,
    username: Option<string>,
    password: Option<string>,
    database: Option<string>,
    host: Option<string>)

  /** config/database.yml, already parsed: environment label to entry. */
  type DatabaseYml = map<string, DbEntry>

  /** The two conventions the hosting provider asks for; breaking one is logged. */
  datatype Warning = HostNotSqlReadWrite | NameNotPrefixedWithUser

  /** The text logged for each warning. */
  function WarningText(w: Warning): string
  {
    match w
    case HostNotSqlReadWrite =>
      "WARNING: Database host is not sqlreadwrite as per the Brightbox requirements"
    case NameNotPrefixedWithUser =>
      "WARNING: Database name is not prefixed with MySQL username as per the Brightbox requirements"
  }

  /** Looking up the settings of an environment the file does not have raises. */
  datatype DbError = NoSettingsForEnvironment(env: string)

  /** The settings read for the environment and the warnings logged about them. */
  datatype DbConfig = DbConfig(entry: DbEntry, warnings: seq<Warning>)

  /** What `create_database` did: the settings it read and the commands it ran. */
  datatype DbTask = DbTask(config: DbConfig, commands: seq<Command>)

  /** Characters with a meaning inside a Ruby regular expression. */
  const RegexMeta: set<char> := {'.', '*', '+', '?', '(', ')', '[', ']', '{', '}', '|', '^', '$', '\\'}

  /** A username that, interpolated into a pattern, stands for itself. */
  predicate NoRegexMeta(s: string)
  {
    forall i | 0 <= i < |s| :: s[i] !in RegexMeta
  }

  /** The database name must begin `<username>_`; a nil username interpolates as "". */
  function UserPrefix(username: Option<string>): string
  {
    username.GetOr("") + "_"
  }

  /** Whether the host warning is logged (`db_host !~ /^sqlreadwrite/`): unless
      some line of the host begins with `sqlreadwrite`. A nil host never matches. */
  function HostWarns(host: Option<string>): (w: bool)
    ensures w <==> (host.None? || !LineStartMatch(host.value, "sqlreadwrite"))
  {
    match host
    case None => true
    case Some(h) =>
      LineAnchoredMatchMeaning(h, "sqlreadwrite");
      !LineAnchoredMatch(h, "sqlreadwrite")
  }

  /** Whether the name warning is logged (`db_name !~ /^#{db_user}\_/`): unless
      some line of the name begins with the username and an underscore. */
  function NameWarns(name: Option<string>, username: Option<string>): (w: bool)
    requires username.Some? ==> NoRegexMeta(username.value)
    ensures w <==> (name.None? || !LineStartMatch(name.value, UserPrefix(username)))
  {
    match name
    case None => true
    case Some(n) =>
      LineAnchoredMatchMeaning(n, UserPrefix(username));
      !LineAnchoredMatch(n, UserPrefix(username))
  }

  /** An entry whose username the model can treat as a literal pattern. */
  predicate LiteralUsername(e: DbEntry)
  {
    e.username.Some? ==> NoRegexMeta(e.username.value)
  }

  /** The warnings logged for an entry, host check first. */
  function NamingWarnings(e: DbEntry): (ws: seq<Warning>)
    requires LiteralUsername(e)
    ensures HostNotSqlReadWrite in ws <==> HostWarns(e.host)
    ensures NameNotPrefixedWithUser in ws <==> NameWarns(e.database, e.username)
    ensures |ws| <= 2 && (|ws| == 2 ==> ws == [HostNotSqlReadWrite, NameNotPrefixedWithUser])
  {
    (if HostWarns(e.host) then [HostNotSqlReadWrite] else [])
    + (if NameWarns(e.database, e.username) then [NameNotPrefixedWithUser] else [])
  }

  /** The lines `read_db_config` logs for an entry: one per failed check, host
      check first. */
  function LoggedWarnings(e: DbEntry): (lines: seq<string>)
    requires LiteralUsername(e)
    ensures |lines| == |NamingWarnings(e)| <= 2
    ensures forall i | 0 <= i < |lines| :: lines[i] == WarningText(NamingWarnings(e)[i])
    ensures ("WARNING: Database host is not sqlreadwrite as per the Brightbox requirements" in lines)
            <==> HostWarns(e.host)
    ensures ("WARNING: Database name is not prefixed with MySQL username as per the Brightbox requirements"
             in lines) <==> NameWarns(e.database, e.username)
  {
    var host, name := WarningText(HostNotSqlReadWrite), WarningText(NameNotPrefixedWithUser);
    assert |host| < |name|;
    (if HostWarns(e.host) then [host] else [])
    + (if NameWarns(e.database, e.username) then [name] else [])
  }

  /** `read_db_config`: picks the entry for `rails_env` (default `production`)
      and logs the naming warnings. It raises only when the environment has no
      entry; the warnings never stop it. */
  function ReadDbConfig(yml: DatabaseYml, railsEnv: Option<string>): (r: Result<DbConfig, DbError>)
    requires EnvKey(railsEnv) in yml ==> LiteralUsername(yml[EnvKey(railsEnv)])
    ensures r.Success? <==> EnvKey(railsEnv) in yml
    ensures r.Failure? ==> r.error == NoSettingsForEnvironment(EnvKey(railsEnv))
    ensures r.Success? ==>
      && r.value.entry == yml[EnvKey(railsEnv)]
      && (HostNotSqlReadWrite in r.value.warnings <==> HostWarns(r.value.entry.host))
      && (NameNotPrefixedWithUser in r.value.warnings <==>
            NameWarns(r.value.entry.database, r.value.entry.username))
      && r.value.warnings == NamingWarnings(r.value.entry)
  {
    var env := EnvKey(railsEnv);
    if env !in yml then Failure(NoSettingsForEnvironment(env))
    else Success(DbConfig(yml[env], NamingWarnings(yml[env])))
  }

  /** The statement `create_database` runs; nil values interpolate as "". It
      names the host, then the user, and ends with the CREATE DATABASE of the
      database name; `-p` makes mysql prompt for the password. */
  function CreateStatement(e: DbEntry): (st: string)
    ensures "mysql -h " + e.host.GetOr("") + " --user=" + e.username.GetOr("") + " -p " <= st
    ensures var tail := "--execute=\"CREATE DATABASE " + e.database.GetOr("") + "\"";
      |tail| <= |st| && st[|st| - |tail|..] == tail
    ensures |st| == 49 + |e.host.GetOr("")| + |e.username.GetOr("")| + |e.database.GetOr("")|
  {
    var options := "mysql -h " + e.host.GetOr("") + " --user=" + e.username.GetOr("") + " -p ";
    var execute := "--execute=\"CREATE DATABASE " + e.database.GetOr("") + "\"";
    assert (options + execute)[|options|..] == execute;
    options + execute
  }

  /** `mysql:create_database`: reads the settings, then runs the CREATE DATABASE
      statement only when the adapter is exactly `mysql`. The password is never
      on the command line; it is sent only in reply to the prompt. */
  function CreateDatabase(yml: DatabaseYml, railsEnv: Option<string>): (r: Result<DbTask, DbError>)
    requires EnvKey(railsEnv) in yml ==> LiteralUsername(yml[EnvKey(railsEnv)])
    ensures r.Success? <==> EnvKey(railsEnv) in yml
    ensures r.Failure? ==> r.error == NoSettingsForEnvironment(EnvKey(railsEnv))
    ensures r.Success? ==> r.value.config.entry == yml[EnvKey(railsEnv)]
    ensures r.Success? ==> ReadDbConfig(yml, railsEnv) == Success(r.value.config)
    ensures r.Success? ==>
      (|r.value.commands| > 0 <==> r.value.config.entry.adapter == Some("mysql"))
    ensures r.Success? ==> |r.value.commands| <= 1
    ensures r.Success? && |r.value.commands| == 1 ==>
      r.value.commands[0] == Run(CreateStatement(r.value.config.entry))
  {
    match ReadDbConfig(yml, railsEnv)
    case Failure(e) => Failure(e)
    case Success(cfg) =>
      if cfg.entry.adapter == Some("mysql") then
        Success(DbTask(cfg, [Run(CreateStatement(cfg.entry))]))
      else Success(DbTask(cfg, []))
  }

  /** Whether `create_database` raises, given which remote commands raise:
      always when the settings are missing, otherwise iff a command it runs
      raises. */
  function CreateDatabaseRaises(yml: DatabaseYml, railsEnv: Option<string>,
                                commandRaises: Command -> bool): (raised: bool)
    requires EnvKey(railsEnv) in yml ==> LiteralUsername(yml[EnvKey(railsEnv)])
    ensures EnvKey(railsEnv) !in yml ==> raised
    ensures EnvKey(railsEnv) in yml && yml[EnvKey(railsEnv)].adapter != Some("mysql") ==> !raised
    ensures EnvKey(railsEnv) in yml && yml[EnvKey(railsEnv)].adapter == Some("mysql") ==>
      (raised <==> commandRaises(Run(CreateStatement(yml[EnvKey(railsEnv)]))))
  {
    match CreateDatabase(yml, railsEnv)
    case Failure(_) => true
    case Success(t) =>
      assert |t.commands| == 1 ==>
               t.commands[1..] == [] && Execute(t.commands[1..], commandRaises).outcome.Completed?;
      Execute(t.commands, commandRaises).outcome.Raised?
  }

  /** `deploy:cold` when `create_database` behaves as its body says: without a
      mysql adapter it issues nothing, cannot raise, and `load_schema` starts
      once the code update and symlink returned. */
  lemma ColdReachesLoadSchemaWithoutMysql(yml: DatabaseYml, railsEnv: Option<string>,
                                          commandRaises: Command -> bool, raises: Deploy.Step -> bool)
    requires EnvKey(railsEnv) in yml && LiteralUsername(yml[EnvKey(railsEnv)])
    requires yml[EnvKey(railsEnv)].adapter != Some("mysql")
    requires raises(Deploy.CreateDatabase) == CreateDatabaseRaises(yml, railsEnv, commandRaises)
    requires !raises(Deploy.UpdateCode) && !raises(Deploy.Symlink)
    ensures [Deploy.UpdateCode, Deploy.Symlink, Deploy.CreateDatabase, Deploy.LoadSchema] <= Deploy.Deploy(Deploy.Cold, raises).started
  {
    var f := Deploy.PlanSteps(Deploy.Cold);
    var head := [Deploy.UpdateCode, Deploy.Symlink, Deploy.CreateDatabase, Deploy.LoadSchema];
    assert f == head + f[4..];
    assert Execute(head, raises).started == head by {
      assert head[1..][1..][1..] == [Deploy.LoadSchema];
    }
    ExecuteAppend(head, f[4..], raises);
  }

  /** `deploy:cold` when the environment has no database settings:
      `create_database` raises and nothing after it starts. */
  lemma ColdStopsWithoutSettings(yml: DatabaseYml, railsEnv: Option<string>,
                                 commandRaises: Command -> bool, raises: Deploy.Step -> bool)
    requires EnvKey(railsEnv) !in yml
    requires raises(Deploy.CreateDatabase) == CreateDatabaseRaises(yml, railsEnv, commandRaises)
    requires !raises(Deploy.UpdateCode) && !raises(Deploy.Symlink)
    ensures Deploy.Deploy(Deploy.Cold, raises) == Execution([Deploy.UpdateCode, Deploy.Symlink, Deploy.CreateDatabase], Raised(Deploy.CreateDatabase))
  {
    Deploy.ColdStopsAtExistingDatabase(raises);
  }

  /** The interactive callback of `create_database`: when a chunk of output has a
      line beginning `Enter password:`, the password and a newline are sent back. */
  function PasswordReply(data: string, password: Option<string>): (r: Option<string>)
    ensures r.Some? <==> LineStartMatch(data, "Enter password:")
    ensures r.Some? ==> r.value == password.GetOr("") + "\n"
  {
    LineAnchoredMatchMeaning(data, "Enter password:");
    if LineAnchoredMatch(data, "Enter password:") then Some(password.GetOr("") + "\n") else None
  }

  /** On single-line values the two checks are plain prefix tests. */
  lemma NamingChecksOnSingleLines(host: string, name: string, username: string)
    requires '\n' !in host && '\n' !in name
    requires NoRegexMeta(username)
    ensures HostWarns(Some(host)) <==> !("sqlreadwrite" <= host)
    ensures NameWarns(Some(name), Some(username)) <==> !(username + "_" <= name)
  {
    SingleLineMatchIsPrefix(host, "sqlreadwrite");
    SingleLineMatchIsPrefix(name, username + "_");
  }

  /** The host examples: `db1.internal` warns and `sqlreadwrite-1` does not. */
  lemma HostExamples()
    ensures HostWarns(Some("db1.internal"))
    ensures !HostWarns(Some("sqlreadwrite-1"))
  {
    var bad, good := "db1.internal", "sqlreadwrite-1";
    SingleLineMatchIsPrefix(bad, "sqlreadwrite");
    SingleLineMatchIsPrefix(good, "sqlreadwrite");
    assert bad[0] != "sqlreadwrite"[0];
    assert good[..12] == "sqlreadwrite";
  }

  /** The name examples for user `alice`: `shop` warns and `alice_shop` does not. */
  lemma NameExamples()
    ensures NameWarns(Some("shop"), Some("alice"))
    ensures !NameWarns(Some("alice_shop"), Some("alice"))
  {
    var bad, good := "shop", "alice_shop";
    assert UserPrefix(Some("alice")) == "alice_";
    SingleLineMatchIsPrefix(bad, "alice_");
    SingleLineMatchIsPrefix(good, "alice_");
    assert bad[0] != "alice_"[0];
    assert good[..6] == "alice_";
  }

  /** `^` anchors at every line: a host whose second line begins `sqlreadwrite`
      passes the check. */
  lemma HostCheckMatchesAnyLine()
    ensures !HostWarns(Some("db1\nsqlreadwrite"))
  {
    assert MatchesAt("db1\nsqlreadwrite", "sqlreadwrite", 4);
  }
}

=== FILE: deploy.dfy ===
/** The three deployment plans of recipes.rb (`deploy:cold`, `deploy:default`,
    `deploy:migrations`) as sequences of task tags, run by the abort-on-first-failure
    executor. */
module Deploy {
  import opened Execution

  /** The tasks the plans invoke, plus the other tasks recipes.rb defines.
      UpdateCode, Symlink, WebDisable, WebEnable, Migrate and ConfigureCluster are
      defined by the deployment tool's own recipes and by mongrel_cluster. */
  datatype Step =
    | UpdateCode | Symlink | WebDisable | WebEnable | Migrate | ConfigureCluster
    | CreateDatabase | LoadSchema
    | MonitConfigure | MonitStatus | MonitReload | MonitRestart
    | RestartCluster | StartCluster | StopCluster
    | ApacheSetup | ApacheReload | ApacheRestart

  /** The deployment tasks. */
  datatype Mode = Cold | Standard | WithMigrations

  /** `deploy:cold`: first deployment. */
  const ColdPlan: seq<Block<Step>> :=
    [Transaction([UpdateCode, Symlink])]
    + AsTasks([CreateDatabase, LoadSchema, Migrate,
               ConfigureCluster, MonitConfigure, MonitReload, StartCluster,
               ApacheSetup, ApacheReload])

  /** `deploy:default`: code update with a maintenance window around the restart. */
  const DefaultPlan: seq<Block<Step>> :=
    [Transaction([UpdateCode, WebDisable, Symlink, RestartCluster])] + AsTasks([WebEnable])

  /** `deploy:migrations`: the default plan with migrations before the restart. */
  const MigrationsPlan: seq<Block<Step>> :=
    [Transaction([UpdateCode, WebDisable, Symlink, Migrate, RestartCluster])] + AsTasks([WebEnable])

  /** The block structure of each deployment task; with the transaction
      dissolved it is the task list written out in PlanSteps. */
  function Plan(mode: Mode): (p: seq<Block<Step>>)
    ensures Flatten(p) == PlanSteps(mode)
  {
    match mode
    case Cold =>
      ColdFlattened();
      ColdPlan
    case Standard =>
      FlattenedWithEnable([UpdateCode, WebDisable, Symlink, RestartCluster]);
      DefaultPlan
    case WithMigrations =>
      FlattenedWithEnable([UpdateCode, WebDisable, Symlink, Migrate, RestartCluster]);
      MigrationsPlan
  }

  /** Runs a deployment task; `raises` says which tasks raise. Every plan is,
      as far as aborting goes, its flattened task list. */
  function Deploy(mode: Mode, raises: Step -> bool): (e: Execution<Step>)
    ensures e == Execute(PlanSteps(mode), raises)
  {
    ExecuteBlocks(Plan(mode), raises)
  }

  /** The task list of each plan with its transaction dissolved; no task
      appears twice in a plan. */
  function PlanSteps(mode: Mode): (steps: seq<Step>)
    ensures Distinct(steps)
  {
    match mode
    case Cold => [UpdateCode, Symlink, CreateDatabase, LoadSchema, Migrate,
                  ConfigureCluster, MonitConfigure, MonitReload, StartCluster,
                  ApacheSetup, ApacheReload]
    case Standard => [UpdateCode, WebDisable, Symlink, RestartCluster, WebEnable]
    case WithMigrations => [UpdateCode, WebDisable, Symlink, Migrate, RestartCluster, WebEnable]
  }

  lemma ColdFlattened()
    ensures Flatten(ColdPlan) == PlanSteps(Cold)
  {
    var tail := [CreateDatabase, LoadSchema, Migrate,
                 ConfigureCluster, MonitConfigure, MonitReload, StartCluster,
                 ApacheSetup, ApacheReload];
    FlattenCons(Transaction([UpdateCode, Symlink]), AsTasks(tail));
    FlattenAsTasks(tail);
  }

  lemma FlattenedWithEnable(transaction: seq<Step>)
    ensures Flatten([Transaction(transaction)] + AsTasks([WebEnable])) == transaction + [WebEnable]
  {
    FlattenCons(Transaction(transaction), AsTasks([WebEnable]));
    FlattenAsTasks([WebEnable]);
  }

  /** The step order of `deploy:cold`: code and symlink first, then the database
      chain, the monit chain, and the Apache setup and reload last. */
  lemma ColdOrder()
    ensures Flatten(ColdPlan)[..2] == [UpdateCode, Symlink]
    ensures Precedes(Flatten(ColdPlan), Symlink, CreateDatabase)
    ensures Precedes(Flatten(ColdPlan), CreateDatabase, LoadSchema)
    ensures Precedes(Flatten(ColdPlan), LoadSchema, Migrate)
    ensures Precedes(Flatten(ColdPlan), Migrate, StartCluster)
    ensures Precedes(Flatten(ColdPlan), MonitConfigure, MonitReload)
    ensures Precedes(Flatten(ColdPlan), MonitReload, StartCluster)
    ensures Precedes(Flatten(ColdPlan), StartCluster, ApacheSetup)
    ensures Precedes(Flatten(ColdPlan), ApacheSetup, ApacheReload)
  {
    ColdFlattened();
    var f := Flatten(ColdPlan);
    assert f[1] == Symlink && f[2] == CreateDatabase && f[3] == LoadSchema;
    assert f[4] == Migrate && f[6] == MonitConfigure && f[7] == MonitReload;
    assert f[8] == StartCluster && f[9] == ApacheSetup && f[10] == ApacheReload;
  }

  /** In every plan, a task starts only once every task planned before it has
      started and returned. */
  lemma StartsOnlyAfterEarlierTasksReturned(mode: Mode, raises: Step -> bool, a: Step, b: Step)
    requires Precedes(PlanSteps(mode), a, b)
    ensures b in Deploy(mode, raises).started ==> a in Deploy(mode, raises).started && !raises(a)
  {
    if b in Deploy(mode, raises).started {
      StartedAfterPredecessorsReturned(PlanSteps(mode), raises, a, b);
    }
  }

  /** In every plan, once a task raises no later task is started and the
      deployment ends with an error. */
  lemma NoTaskAfterARaise(mode: Mode, raises: Step -> bool, a: Step, b: Step)
    requires Precedes(PlanSteps(mode), a, b)
    requires raises(a)
    ensures b !in Deploy(mode, raises).started
    ensures Deploy(mode, raises).outcome.Raised?
  {
    NothingAfterFailure(PlanSteps(mode), raises, a, b);
  }

  /** A failing code update stops every plan before anything else starts,
      including the symlink in the same transaction. */
  lemma UpdateCodeFailureStopsEverything(mode: Mode, raises: Step -> bool)
    requires raises(UpdateCode)
    ensures Deploy(mode, raises) == Execution([UpdateCode], Raised(UpdateCode))
  {
    assert PlanSteps(mode)[0] == UpdateCode;
  }

  /** `deploy:cold` on an existing database: `create_database` raises after the
      code update and symlink returned, and nothing from `load_schema` onward
      is started. Rollback hooks of the transaction are outside the model. */
  lemma ColdStopsAtExistingDatabase(raises: Step -> bool)
    requires !raises(UpdateCode) && !raises(Symlink)
    requires raises(CreateDatabase)
    ensures Deploy(Cold, raises) == Execution([UpdateCode, Symlink, CreateDatabase], Raised(CreateDatabase))
  {
    var f := PlanSteps(Cold);
    var head := [UpdateCode, Symlink, CreateDatabase];
    assert f == head + f[3..];
    assert Execute(head, raises) == Execution(head, Raised(CreateDatabase)) by {
      assert head[1..][1..] == [CreateDatabase];
    }
    ExecuteAppend(head, f[3..], raises);
  }

  /** The maintenance window of `deploy:default`: the cluster restart starts only
      after `web:disable` returned, and `web:enable` starts only after every
      task of the transaction returned. */
  lemma DefaultMaintenanceWindow(raises: Step -> bool)
    ensures RestartCluster in Deploy(Standard, raises).started ==>
              WebDisable in Deploy(Standard, raises).started && !raises(WebDisable)
    ensures WebEnable in Deploy(Standard, raises).started ==>
              forall s | s in [UpdateCode, WebDisable, Symlink, RestartCluster] ::
                s in Deploy(Standard, raises).started && !raises(s)
  {
    var f := PlanSteps(Standard);
    assert f[1] == WebDisable && f[3] == RestartCluster;
    if RestartCluster in Deploy(Standard, raises).started {
      StartsOnlyAfterEarlierTasksReturned(Standard, raises, WebDisable, RestartCluster);
    }
    if WebEnable in Deploy(Standard, raises).started {
      forall s | s in [UpdateCode, WebDisable, Symlink, RestartCluster]
        ensures s in Deploy(Standard, raises).started && !raises(s)
      {
        assert f[..4] == [UpdateCode, WebDisable, Symlink, RestartCluster];
        var i :| 0 <= i < 4 && f[..4][i] == s;
        assert f[i] == s && f[4] == WebEnable;
        StartsOnlyAfterEarlierTasksReturned(Standard, raises, s, WebEnable);
      }
    }
  }

  /** `deploy:migrations` is `deploy:default` with `migrate` inserted after the
      symlink and before the cluster restart, inside the transaction. */
  lemma MigrationsIsDefaultWithMigrate()
    ensures |MigrationsPlan| == |DefaultPlan| == 2
    ensures MigrationsPlan[1] == DefaultPlan[1] == Task(WebEnable)
    ensures MigrationsPlan[0].steps ==
      DefaultPlan[0].steps[..3] + [Migrate] + DefaultPlan[0].steps[3..]
    ensures DefaultPlan[0].steps[2] == Symlink && DefaultPlan[0].steps[3] == RestartCluster
  {
  }

  /** A failing migration in `deploy:migrations`: `web:disable` has returned,
      the cluster restart and `web:enable` are never started. Whatever rollback
      hooks the transaction's tasks registered is outside the model. */
  lemma MigrateFailureNeverReachesWebEnable(raises: Step -> bool)
    requires !raises(UpdateCode) && !raises(WebDisable) && !raises(Symlink)
    requires raises(Migrate)
    ensures Deploy(WithMigrations, raises) ==
      Execution([UpdateCode, WebDisable, Symlink, Migrate], Raised(Migrate))
    ensures WebDisable in Deploy(WithMigrations, raises).started
    ensures RestartCluster !in Deploy(WithMigrations, raises).started
    ensures WebEnable !in Deploy(WithMigrations, raises).started
  {
    var f := PlanSteps(WithMigrations);
    assert f == [UpdateCode, WebDisable, Symlink, Migrate, RestartCluster, WebEnable];
    assert f[1..][1..][1..] == f[3..];
  }

  /** A run of any plan that completes has started every planned task exactly
      in plan order. */
  lemma CompletedRunStartedWholePlan(mode: Mode, raises: Step -> bool)
    requires Deploy(mode, raises).outcome.Completed?
    ensures Deploy(mode, raises).started == PlanSteps(mode)
    ensures forall s | s in PlanSteps(mode) :: !raises(s)
  {
    ExecuteAbortsOnFirstFailure(PlanSteps(mode), raises);
  }
}

=== FILE: environment.dfy ===
/** The Rails environment label shared by `load_schema` and `read_db_config`. */
module Environment {
  import opened Results

  /** The environment label used to pick the database settings and to run rake:
      `rails_env`, or `"production"` when it is nil or false. */
  function EnvKey(railsEnv: Option<string>): (env: string)
    ensures railsEnv.Some? ==> env == railsEnv.value
    ensures railsEnv.None? ==> env == "production"
  {
    railsEnv.GetOr("production")
  }
}

=== FILE: execution.dfy ===
/** Straight-line execution of steps with Ruby exception propagation: each step
    either returns or raises, and a raise skips every later statement. Which
    steps raise is given by an oracle, since the remote commands are not modelled. */
module Execution {

  /** How a run ended: every step returned, or `failed` raised and the
      exception propagated out of the plan. */
  datatype Outcome<T> = Completed | Raised(failed: T)

  /** The steps that were started, in order, and how the run ended. */
  datatype Execution<T> = Execution(started: seq<T>, outcome: Outcome<T>)

  /** A plan entry: a single task, or a `transaction do ... end` group. */
  datatype Block<T> = Task(step: T) | Transaction(steps: seq<T>)

  /** Abort-on-first-failure, stated without reference to how it is computed:
      the started steps are a prefix of the plan, every started step but the
      last returned, and the run completed exactly when the whole plan ran
      without a raise. */
  ghost predicate AbortsOnFirstFailure<T>(plan: seq<T>, raises: T -> bool, e: Execution<T>)
  {
    && e.started <= plan
    && (forall i | 0 <= i < |e.started| - 1 :: !raises(e.started[i]))
    && match e.outcome
       case Completed =>
         e.started == plan && forall i | 0 <= i < |plan| :: !raises(plan[i])
       case Raised(f) =>
         |e.started| > 0 && f == e.started[|e.started| - 1] && raises(f)
  }

  /** Runs `plan` step by step; the first step that raises ends the run. */
  function Execute<T>(plan: seq<T>, raises: T -> bool): Execution<T>
  {
    if |plan| == 0 then Execution([], Completed)
    else if raises(plan[0]) then Execution([plan[0]], Raised(plan[0]))
    else
      var rest := Execute(plan[1..], raises);
      Execution([plan[0]] + rest.started, rest.outcome)
  }

  /** `Execute` meets the abort-on-first-failure specification. */
  lemma {:induction false} ExecuteAbortsOnFirstFailure<T>(plan: seq<T>, raises: T -> bool)
    ensures AbortsOnFirstFailure(plan, raises, Execute(plan, raises))
  {
    if |plan| > 0 && !raises(plan[0]) {
      ExecuteAbortsOnFirstFailure(plan[1..], raises);
      assert plan == [plan[0]] + plan[1..];
    }
  }

  /** The specification admits exactly one execution, so `Execute` is the only
      behaviour consistent with abort-on-first-failure. */
  lemma AbortsOnFirstFailureUnique<T>(plan: seq<T>, raises: T -> bool, e1: Execution<T>, e2: Execution<T>)
    requires AbortsOnFirstFailure(plan, raises, e1)
    requires AbortsOnFirstFailure(plan, raises, e2)
    ensures e1 == e2
  {
  }

  /** Running `a + b` is running `a`, then, if `a` completed, running `b`. */
  lemma {:induction false} ExecuteAppend<T>(a: seq<T>, b: seq<T>, raises: T -> bool)
    ensures Execute(a + b, raises) ==
      (var ea := Execute(a, raises);
       if ea.outcome.Raised? then ea
       else var eb := Execute(b, raises); Execution(a + eb.started, eb.outcome))
  {
    var ea := Execute(a, raises);
    if |a| == 0 {
      assert a + b == b;
      assert ea == Execution([], Completed);
    } else {
      var ab := a + b;
      assert ab[0] == a[0];
      assert ab[1..] == a[1..] + b;
      if raises(a[0]) {
        assert ea == Execution([a[0]], Raised(a[0]));
        assert Execute(ab, raises) == Execution([a[0]], Raised(a[0]));
      } else {
        ExecuteAppend(a[1..], b, raises);
        var tail := Execute(a[1..], raises);
        assert ea == Execution([a[0]] + tail.started, tail.outcome);
        assert Execute(ab, raises) == Execution([a[0]] + Execute(a[1..] + b, raises).started,
                                                Execute(a[1..] + b, raises).outcome);
        if tail.outcome.Completed? {
          assert a == [a[0]] + a[1..];
        }
      }
    }
  }

  /** The steps of a block, in order. */
  function Steps<T>(b: Block<T>): seq<T>
  {
    match b
    case Task(s) => [s]
    case Transaction(ss) => ss
  }

  /** A plan with its transaction groups dissolved. */
  function Flatten<T>(blocks: seq<Block<T>>): seq<T>
  {
    if |blocks| == 0 then [] else Steps(blocks[0]) + Flatten(blocks[1..])
  }

  /** Each step as a block of its own. */
  function AsTasks<T>(steps: seq<T>): seq<Block<T>>
  {
    if |steps| == 0 then [] else [Task(steps[0])] + AsTasks(steps[1..])
  }

  lemma {:induction false} FlattenAsTasks<T>(steps: seq<T>)
    ensures Flatten(AsTasks(steps)) == steps
  {
    if |steps| > 0 {
      FlattenAsTasks(steps[1..]);
      FlattenCons(Task(steps[0]), AsTasks(steps[1..]));
      assert steps == [steps[0]] + steps[1..];
    }
  }

  lemma FlattenCons<T>(b: Block<T>, rest: seq<Block<T>>)
    ensures Flatten([b] + rest) == Steps(b) + Flatten(rest)
  {
    assert ([b] + rest)[1..] == rest;
  }

  /** Runs a plan block by block: a transaction runs its steps in order and a
      raise inside it propagates out of the whole plan. Only the steps started
      are recorded; rollback hooks registered elsewhere are not modelled.
      A transaction is sequencing only: running the grouped plan is the same
      as running its flattened step list. */
  function ExecuteBlocks<T>(blocks: seq<Block<T>>, raises: T -> bool): (e: Execution<T>)
    ensures e == Execute(Flatten(blocks), raises)
  {
    if |blocks| == 0 then Execution([], Completed)
    else
      var head := Execute(Steps(blocks[0]), raises);
      ExecuteAppend(Steps(blocks[0]), Flatten(blocks[1..]), raises);
      if head.outcome.Raised? then head
      else
        var rest := ExecuteBlocks(blocks[1..], raises);
        Execution(Steps(blocks[0]) + rest.started, rest.outcome)
  }

  /** No element occurs twice. */
  predicate Distinct<T(==)>(xs: seq<T>)
  {
    forall i, j | 0 <= i < j < |xs| :: xs[i] != xs[j]
  }

  /** `a` occurs before `b` in `xs`. */
  predicate Precedes<T(==)>(xs: seq<T>, a: T, b: T)
  {
    exists i, j | 0 <= i < j < |xs| :: xs[i] == a && xs[j] == b
  }

  /** A step starts only after every step before it in the plan started and
      returned. */
  lemma StartedAfterPredecessorsReturned<T>(plan: seq<T>, raises: T -> bool, a: T, b: T)
    requires Distinct(plan)
    requires Precedes(plan, a, b)
    requires b in Execute(plan, raises).started
    ensures a in Execute(plan, raises).started && !raises(a)
  {
    var e := Execute(plan, raises);
    ExecuteAbortsOnFirstFailure(plan, raises);
    var i, j :| 0 <= i < j < |plan| && plan[i] == a && plan[j] == b;
    var k :| 0 <= k < |e.started| && e.started[k] == b;
    assert plan[k] == b;
    assert k == j;
    assert e.started[i] == a;
  }

  /** Once a step raises, no step after it in the plan is started. */
  lemma NothingAfterFailure<T>(plan: seq<T>, raises: T -> bool, a: T, b: T)
    requires Distinct(plan)
    requires Precedes(plan, a, b)
    requires raises(a)
    ensures b !in Execute(plan, raises).started
    ensures Execute(plan, raises).outcome.Raised?
  {
    var e := Execute(plan, raises);
    ExecuteAbortsOnFirstFailure(plan, raises);
    if b in e.started {
      StartedAfterPredecessorsReturned(plan, raises, a, b);
    }
    var i, j :| 0 <= i < j < |plan| && plan[i] == a && plan[j] == b;
    assert raises(plan[i]);
  }
}

=== FILE: remote.dfy ===
/** The remote operations a task body issues. The transport that carries them
    is outside the model. */
module Remote {

  /** `run` executes a shell line as the deploy user, `sudo` as root;
      `Sleep` is a local pause of the given number of seconds. */
  datatype Command = Run(line: string) | Sudo(line: string) | Sleep(seconds: nat)
}

=== FILE: results.dfy ===
/** Option and Result values: Ruby's `nil` and a raised exception, made explicit. */
module Results {

  /** A value that may be absent (Ruby `nil`). */
  datatype Option<+T> = None | Some(value: T) {

    /** The value, or `default` when absent (Ruby `x || default`). */
    function GetOr(default: T): T {
      match this
      case Some(v) => v
      case None => default
    }
  }

  /** A computation that either returns a value or raises an error. */
  datatype Result<+R, +E> = Success(value: R) | Failure(error: E)
}

=== FILE: tasks.dfy ===
/** The remote commands issued by the tasks recipes.rb defines itself: the
    `apache`, `monit` and `monit:mongrel` namespaces and `load_schema`. */
module Tasks {
  import opened Results
  import opened Remote
  import opened Execution
  import opened Deploy
  import opened Environment

  /** The configuration variables the task bodies interpolate, already rendered
      as strings. `railsEnv` is `None` when `rails_env` is nil or false. */
  datatype Settings = Settings(
    application: string,
    domain: string,
    domainAliases: string,
    currentPath: string,
    mongrelHost: string,
    mongrelPort: string,
    mongrelServers: string,
    rake: string,
    railsEnv: Option<string>)

  /** Apache's configuration syntax test. */
  const ConfigTest: Command := Sudo("/usr/sbin/apache2ctl -t")

  /** The tasks whose bodies are written out in recipes.rb as fixed command
      lists. `create_database` depends on the database settings and is modelled
      in `Database`; the other steps belong to other recipe files. */
  predicate HasCommandBody(step: Step)
  {
    step in {ApacheReload, ApacheSetup, ApacheRestart,
             MonitConfigure, MonitStatus, MonitReload, MonitRestart,
             RestartCluster, StartCluster, StopCluster, LoadSchema}
  }

  /** The commands a task issues, in order: one or two of them, all as root
      except the `run` of `load_schema` and the settle of `monit:reload`, with
      the Apache configuration test in exactly the three `apache` tasks. */
  function Body(step: Step, s: Settings): (cmds: seq<Command>)
    requires HasCommandBody(step)
    ensures 1 <= |cmds| <= 2
    ensures forall i | 0 <= i < |cmds| :: cmds[i].Run? <==> step == LoadSchema
    ensures forall i | 0 <= i < |cmds| :: cmds[i].Sleep? <==> step == MonitReload && i == 1
    ensures (ConfigTest in cmds) <==> step in {ApacheReload, ApacheSetup, ApacheRestart}
  {
    match step
    case ApacheReload => [ConfigTest, Sudo("/usr/sbin/apache2ctl graceful")]
    case ApacheSetup =>
      [Sudo("/usr/bin/brightbox-apache -n " + s.application + " -d " + s.domain
            + " -a " + s.domainAliases + " -w " + s.currentPath + "/public"
            + " -h " + s.mongrelHost + " -p " + s.mongrelPort + " -s " + s.mongrelServers),
       ConfigTest]
    case ApacheRestart => [ConfigTest, Sudo("/etc/init.d/apache2 restart")]
    case MonitConfigure =>
      [Sudo("/usr/bin/brightbox-monit -n " + s.application + " -r " + s.currentPath
            + " -p " + s.mongrelPort + " -s " + s.mongrelServers + " -h " + s.mongrelHost)]
    case MonitStatus => [Sudo("/usr/sbin/monit status")]
    case MonitReload => [Sudo("/usr/sbin/monit reload"), Sleep(5)]
    case MonitRestart => [Sudo("/etc/init.d/monit restart")]
    case RestartCluster => [ClusterCommand(s.application, "restart")]
    case StartCluster => [ClusterCommand(s.application, "start")]
    case StopCluster => [ClusterCommand(s.application, "stop")]
    case LoadSchema =>
      [Run("cd " + s.currentPath + " && " + s.rake + " RAILS_ENV=" + EnvKey(s.railsEnv)
           + " db:schema:load")]
  }

  /** Asks monit to act on every process of the application's group. */
  function ClusterCommand(application: string, verb: string): Command
  {
    Sudo("/usr/sbin/monit -g " + application + " " + verb + " all")
  }

  /** `apache:reload` and `apache:restart` test the configuration first and then
      reload gracefully or restart Apache: for any pattern of remote failures,
      nothing but the test is started unless the test ran first and passed. */
  lemma ConfigTestGuardsApache(step: Step, s: Settings, raises: Command -> bool)
    requires step == ApacheReload || step == ApacheRestart
    ensures Body(step, s)[0] == ConfigTest
    ensures Body(ApacheReload, s) == [ConfigTest, Sudo("/usr/sbin/apache2ctl graceful")]
    ensures Body(ApacheRestart, s) == [ConfigTest, Sudo("/etc/init.d/apache2 restart")]
    ensures forall c | c in Execute(Body(step, s), raises).started && c != ConfigTest ::
              ConfigTest in Execute(Body(step, s), raises).started && !raises(ConfigTest)
  {
    var body := Body(step, s);
    assert |body| == 2 && body[0] == ConfigTest && body[1] != ConfigTest;
    assert Precedes(body, body[0], body[1]);
    forall c | c in Execute(body, raises).started && c != ConfigTest
      ensures ConfigTest in Execute(body, raises).started && !raises(ConfigTest)
    {
      ExecuteAbortsOnFirstFailure(body, raises);
      assert c == body[1];
      StartedAfterPredecessorsReturned(body, raises, ConfigTest, c);
    }
  }

  /** `apache:setup` generates the site configuration and then tests it; the
      test runs only if generation returned. */
  lemma ApacheSetupTestsAfterGenerating(s: Settings, raises: Command -> bool)
    ensures |Body(ApacheSetup, s)| == 2 && Body(ApacheSetup, s)[1] == ConfigTest
    ensures Body(ApacheSetup, s)[0].Sudo? && Body(ApacheSetup, s)[0] != ConfigTest
    ensures Body(ApacheSetup, s)[0].line ==
      "/usr/bin/brightbox-apache -n " + s.application + " -d " + s.domain
      + " -a " + s.domainAliases + " -w " + s.currentPath + "/public"
      + " -h " + s.mongrelHost + " -p " + s.mongrelPort + " -s " + s.mongrelServers
    ensures ConfigTest in Execute(Body(ApacheSetup, s), raises).started ==>
              !raises(Body(ApacheSetup, s)[0])
  {
    var body := Body(ApacheSetup, s);
    assert body[0].line[5] == 'b' && ConfigTest.line[5] == 's';
    assert body[0] != ConfigTest && body[1] == ConfigTest;
    assert Precedes(body, body[0], body[1]);
    if ConfigTest in Execute(body, raises).started {
      StartedAfterPredecessorsReturned(body, raises, body[0], ConfigTest);
    }
  }

  /** `monit:configure` runs the monit configuration generator once, as root,
      for the application's release and its mongrel servers. */
  lemma MonitConfigureGenerates(s: Settings)
    ensures Body(MonitConfigure, s) ==
      [Sudo("/usr/bin/brightbox-monit -n " + s.application + " -r " + s.currentPath
            + " -p " + s.mongrelPort + " -s " + s.mongrelServers + " -h " + s.mongrelHost)]
  {
  }

  /** `monit:status` and `monit:restart` each issue one root command: the status
      summary and the init script's restart. */
  lemma MonitStatusAndRestart(s: Settings)
    ensures Body(MonitStatus, s) == [Sudo("/usr/sbin/monit status")]
    ensures Body(MonitRestart, s) == [Sudo("/etc/init.d/monit restart")]
  {
  }

  /** `monit:reload` ends with a five-second settle, which is reached only if the
      reload command returned. */
  lemma MonitReloadSettles(s: Settings, raises: Command -> bool)
    ensures Body(MonitReload, s) == [Sudo("/usr/sbin/monit reload"), Sleep(5)]
    ensures Sleep(5) in Execute(Body(MonitReload, s), raises).started ==>
              !raises(Sudo("/usr/sbin/monit reload"))
  {
    var body := Body(MonitReload, s);
    assert Precedes(body, body[0], body[1]);
    if Sleep(5) in Execute(body, raises).started {
      StartedAfterPredecessorsReturned(body, raises, body[0], body[1]);
    }
  }

  /** The three cluster tasks each issue one root command that acts on every
      process of the application's monit group, with their own verbs. */
  lemma ClusterTasksActOnApplicationGroup(s: Settings)
    ensures forall step | step in {RestartCluster, StartCluster, StopCluster} ::
      |Body(step, s)| == 1 && Body(step, s)[0].Sudo? &&
      "/usr/sbin/monit -g " + s.application + " " <= Body(step, s)[0].line
    ensures var pre := |"/usr/sbin/monit -g " + s.application + " "|;
      && Body(RestartCluster, s)[0].line[pre..] == "restart all"
      && Body(StartCluster, s)[0].line[pre..] == "start all"
      && Body(StopCluster, s)[0].line[pre..] == "stop all"
    ensures Body(RestartCluster, s) != Body(StartCluster, s)
    ensures Body(StartCluster, s) != Body(StopCluster, s)
    ensures Body(RestartCluster, s) != Body(StopCluster, s)
  {
    var pre := "/usr/sbin/monit -g " + s.application + " ";
    var restart, start, stop := Body(RestartCluster, s)[0].line, Body(StartCluster, s)[0].line,
                                Body(StopCluster, s)[0].line;
    assert restart[|pre|] == 'r' && start[|pre|] == 's' && stop[|pre|] == 's';
    assert start[|pre| + 2] == 'a' && stop[|pre| + 2] == 'o';
  }

  /** `load_schema` runs rake in the current release for the same environment
      label that selects the database settings. */
  lemma LoadSchemaUsesEnvironment(s: Settings)
    ensures |Body(LoadSchema, s)| == 1 && Body(LoadSchema, s)[0].Run?
    ensures var line := Body(LoadSchema, s)[0].line;
      var tail := " RAILS_ENV=" + EnvKey(s.railsEnv) + " db:schema:load";
      && "cd " + s.currentPath + " && " <= line
      && |tail| <= |line| && line[|line| - |tail|..] == tail
      && |"cd " + s.currentPath + " && "| + |s.rake| + |tail| == |line|
      && line[|"cd " + s.currentPath + " && "|..|line| - |tail|] == s.rake
    ensures s.railsEnv.None? ==> EnvKey(s.railsEnv) == "production"
  {
  }
}

=== FILE: text.dfy ===
/** String helpers shared by the recipes: Ruby's line-anchored `/^p/` match for a
    literal pattern `p`, and joining words with single spaces. */
module Text {

  /** Position `k` of `s` begins a line: it is the start of the string or follows a
      newline. This is where Ruby's `^` anchor may match. */
  predicate IsLineStart(s: string, k: int)
    requires 0 <= k <= |s|
  {
    k == 0 || s[k - 1] == '\n'
  }

  /** The literal pattern `p` occurs in `s` at the start of a line, at position `k`. */
  ghost predicate MatchesAt(s: string, p: string, k: int)
  {
    0 <= k <= |s| && IsLineStart(s, k) && p <= s[k..]
  }

  /** Reference meaning of `s =~ /^p/` for a pattern without metacharacters. */
  ghost predicate LineStartMatch(s: string, p: string)
  {
    exists k :: MatchesAt(s, p, k)
  }

  /** Scans `s` from position `i` for a line start where `p` occurs. */
  function ScanLines(s: string, p: string, i: nat): bool
    requires i <= |s|
    decreases |s| - i
  {
    if IsLineStart(s, i) && p <= s[i..] then true
    else if i == |s| then false
    else ScanLines(s, p, i + 1)
  }

  /** Executable `s =~ /^p/` for a literal pattern `p`. */
  function LineAnchoredMatch(s: string, p: string): bool
  {
    ScanLines(s, p, 0)
  }

  lemma {:induction false} ScanLinesFinds(s: string, p: string, i: nat)
    requires i <= |s|
    ensures ScanLines(s, p, i) <==> exists k :: i <= k && MatchesAt(s, p, k)
    decreases |s| - i
  {
    if IsLineStart(s, i) && p <= s[i..] {
      assert MatchesAt(s, p, i);
    } else if i == |s| {
      assert !MatchesAt(s, p, i);
    } else {
      ScanLinesFinds(s, p, i + 1);
      if k :| i <= k && MatchesAt(s, p, k) {
        assert k != i;
        assert i + 1 <= k;
      }
    }
  }

  /** The scanner decides exactly the line-anchored match, in both directions. */
  lemma LineAnchoredMatchMeaning(s: string, p: string)
    ensures LineAnchoredMatch(s, p) <==> LineStartMatch(s, p)
  {
    ScanLinesFinds(s, p, 0);
  }

  /** On a single-line string the line anchor is a plain prefix test. */
  lemma SingleLineMatchIsPrefix(s: string, p: string)
    requires '\n' !in s
    ensures LineAnchoredMatch(s, p) <==> p <= s
  {
    LineAnchoredMatchMeaning(s, p);
    forall k | 0 < k <= |s|
      ensures !IsLineStart(s, k)
    {
      assert s[k - 1] in s;
    }
    if !LineStartMatch(s, p) {
      assert !MatchesAt(s, p, 0);
    }
  }

  /** The words of `ws` separated by single spaces. */
  function JoinWords(ws: seq<string>): string
  {
    if |ws| == 0 then ""
    else if |ws| == 1 then ws[0]
    else ws[0] + " " + JoinWords(ws[1..])
  }

  /** Index of the first occurrence of `c` in `s`, if any. */
  function IndexOf(s: string, c: char): (r: int)
    ensures -1 <= r < |s|
    ensures r == -1 <==> c !in s
    ensures r >= 0 ==> s[r] == c && c !in s[..r]
  {
    if |s| == 0 then -1
    else if s[0] == c then 0
    else
      var k := IndexOf(s[1..], c);
      assert s[1..][..if k < 0 then 0 else k] == s[1..1 + (if k < 0 then 0 else k)];
      if k < 0 then -1 else k + 1
  }
}
